=== FILE: README.md ===
# Instance-segmentation post-processing, modelled in Dafny

This project models the post-processing of `segment_image` in `Docker/src/segment.py`, the one
piece of the repository with logic of its own. The function takes the raw outputs of an
instance-segmentation network and reduces them to a single polygon: the largest external
contour, in original-image coordinates, or none.

The steps are:
- reject an absent or zero-size image with an invalid-argument error;
- keep the detection rows whose score (column 4) is strictly above the confidence threshold;
- reconstruct each survivor's mask as the linear combination of the 32 prototype planes
  weighted by its 32 coefficients;
- binarise the mask at `> 0.5` to {0, 255} and resize it to the image's own height and width;
- trace the mask's external contours and keep the first one of maximal area;
- across detections, keep a running maximum that starts at area 0 and is replaced only on a
  strictly larger area.

Modules, one per component:

- `Outcomes` (`outcomes.dfy`): `Option` for "no contour", and `Result` for the invalid-argument
  error.
- `Geometry` (`geometry.dfy`): points, contours, and the contour area. The area is the absolute
  shoelace area over exact integers, which is what `cv2.contourArea` computes for a closed
  polygon.
- `Masks` (`masks.dfy`): the combination as the source writes it (transpose, reshape to
  `(H'*W', 32)`, matrix-vector product, reshape back), proved equal cell by cell to a reference
  weighted sum; then binarisation.
- `Detections` (`detections.dfy`): the confidence filter as boolean-mask selection applied to
  the box columns and the coefficient columns alike. It is proved equal to an index-based
  reference, and monotone in the threshold.
- `ContourSelection` (`contour_selection.dfy`): `_masks_to_contours`, the first maximal-area
  contour of one mask.
- `Segment` (`segment.dfy`): the pipeline method `SegmentImage` with its loop, the selection
  predicate `IsBest`, and the pipeline-level lemmas.

Foreign pieces become parameters:
- The inference engine (`session.run`) is a function `infer: Image -> NetOutput`.
- `cv2.resize` and `cv2.findContours` are the two fields of a `Vision` value. Their few needed
  facts are predicates that a lemma takes as preconditions:
  - `ResizeHonoursSize`: resizing a nonempty mask to a nonempty size gives exactly that size;
  - `BlankStaysEmpty`: resizing keeps a nonempty all-zero mask all zero, and an all-zero mask
    yields no contour.
- `Vision.resize` takes its size as `(width, height)`, the order `cv2.resize` uses.
- Reals are exact `real`s, not 32-bit floats.
- The default threshold 0.3 is the constant `Segment.DefaultConfidence`, the default value of
  `SegmentImage`'s `confidence` parameter.

`cv2.resize`'s default interpolation is bilinear, so the resized binary mask need not be
strictly binary. The model therefore claims binarity only at prototype
resolution (`Masks.Reconstruct`), not after the resize.

## Model

| member | source | states |
|---|---|---|
| `Segment.SegmentImage` | Docker/src/segment.py:30-82 | An error is returned exactly when the image is absent or has size 0. Otherwise the result is the outcome of the running maximum over the survivors' contours (`IsBest`): none when no contour has positive area, else the contour of the first detection whose area is positive and maximal. With no survivors the result is none. |
| `Segment.RunningStep` | Docker/src/segment.py:76-80 | One loop step keeps the running-maximum state. A detection's contour replaces the current best exactly when its area is strictly larger than the current maximum (0 while nothing is selected). |
| `Segment.RunningDone` | Docker/src/segment.py:64-82 | After the loop, the running-maximum state is the selection over all survivors. |
| `Segment.IsBestUnique` | Docker/src/segment.py:64-82 | The selection is a function of the candidates: two outcomes that both satisfy it are equal, so first-wins on ties leaves no choice. |
| `Segment.BestCoversEveryTracedContour` | Docker/src/segment.py:22-27 | Compared with every contour traced on any survivor's mask, not only each mask's own pick, the selected contour is at least as large. It has positive area and was traced on some survivor's mask. With no selection, every traced contour has area 0. |
| `Segment.DetectionMaskHasImageSize` | Docker/src/segment.py:36 | The mask handed to contour tracing has the original image's height and width, given that resize returns the requested size for a nonempty mask and a nonempty target (the image has positive height and width). |
| `Segment.ZeroCoefficientsGiveNoContour` | Docker/src/segment.py:68-75 | A detection whose coefficients are all zero contributes no contour, given that an all-zero mask stays empty through resize and tracing. |
| `Segment.LargerSquareWins` | Docker/src/segment.py:77-80 | Of two square contours, the larger one is selected in either detection order, and its area is its side squared. |
| `Masks.Combine` | Docker/src/segment.py:68 | The transpose, flatten, dot product and reshape give an H' by W' plane whose cell (i, j) equals the sum over k of `protos[k][i][j] * coeff[k]`. |
| `Masks.Binarise` | Docker/src/segment.py:69 | The binarised mask has the input's shape. Every cell is 0 or 255, and it is 255 exactly where the input exceeds 0.5. |
| `Masks.Reconstruct` | Docker/src/segment.py:68-69 | A detection's mask at prototype resolution is H' by W'. Each cell is 0 or 255, and it is 255 exactly where the weighted sum of the planes exceeds 0.5. |
| `Masks.ZeroCoefficientsGiveBlankMask` | Docker/src/segment.py:68-69 | All-zero coefficients reconstruct an all-zero mask. |
| `Masks.UniformCombination` | Docker/src/segment.py:69 | A combination above 0.5 everywhere gives an all-255 mask. One at or below 0.5 everywhere gives an all-zero mask. |
| `Detections.Filter` | Docker/src/segment.py:54-58 | The filtered boxes and coefficients have one entry per kept row. The n-th box and the n-th coefficient vector are the first 6 and the last 32 columns of the same original row, the n-th kept one. Every coefficient vector has 32 entries. |
| `Detections.KeptExact` | Docker/src/segment.py:56-58 | The kept positions are exactly the rows whose column-4 score is strictly above the threshold, in increasing order. |
| `Detections.KeptMonotone` | Docker/src/segment.py:56 | Raising the threshold keeps a subsequence of the rows kept at the lower threshold. |
| `Detections.SurvivorsMonotone` | Docker/src/segment.py:55-58 | Raising the threshold yields a subsequence of the surviving coefficient vectors. |
| `ContourSelection.LargestIndex` | Docker/src/segment.py:26 | The maximum by area is at a position whose contour is at least as large as every other, and every contour before it is strictly smaller: the first maximal one. |
| `ContourSelection.FirstLargestUnique` | Docker/src/segment.py:26 | Only one position is the first maximal one. |
| `ContourSelection.LargestContour` | Docker/src/segment.py:22-27 | The result is none exactly when no contour was traced. Otherwise it is the contour at the first maximal-area position. |
| `Geometry.ContourArea` | Docker/src/segment.py:77 | The area is non-negative, and it is zero exactly when the signed shoelace sum is zero. |
| `Geometry.RectangleArea` | Docker/src/segment.py:77 | An axis-aligned rectangle of width w and height h has area w*h. |
| `Geometry.DegenerateContourHasNoArea` | Docker/src/segment.py:77-78 | A contour of one or two points has area 0, so the strict test against the floor of 0 never selects it. |

## Left out

- Segment.SegmentImage: errors raised by the left-out input preparation and inference are not
  modelled. Examples are `cv2.cvtColor` rejecting an image with other than 3 or 4 channels or an
  element type other than uint8, uint16 or float32, the shape unpacking failing on a
  one-dimensional array, and failures inside `session.run`. The model succeeds on
  every present image of nonzero size. The only caller decodes images as three-channel colour.

- Inference session setup (model path, providers, log level) and the `session.run` call: the
  engine is the parameter `infer`.
- Input tensor preparation: the resize to 640 by 640, BGR to RGB, scaling by 1/255 and the
  transpose to channel-first. This is layout and float work inside the engine's input contract.
- The internals of `cv2.findContours` (external border tracing with collinear-point removal) and
  of `cv2.resize` interpolation. These are parameters; only the facts named above are assumed.
- Floating-point rounding: the threshold comparisons and the linear combination use exact reals.
- Malformed network outputs: the source relies on the network's shapes: rows of 38 columns, and 32
  prototype planes of positive height and width. `SegmentImage` requires them (`WellShaped`)
  rather than modelling numpy's shape errors or `cv2.resize` rejecting an empty mask.
- The HTTP handler and image loader (`Docker/api.py`) and the demo UI (`client-mobile.py`): I/O
  glue outside the core.

=== FILE: contour_selection.dfy ===
/** Choosing one contour among those traced on a mask: the first one of maximal area. */
module ContourSelection {
  import opened Outcomes
  import opened Geometry

  /** `k` is the position of a contour of maximal area, and every contour before it is strictly
      smaller: the first maximal contour in traced order. */
  predicate IsFirstLargest(cs: seq<Contour>, k: nat) {
    && k < |cs|
    && (forall j :: 0 <= j < |cs| ==> ContourArea(cs[j]) <= ContourArea(cs[k]))
    && (forall j :: 0 <= j < k ==> ContourArea(cs[j]) < ContourArea(cs[k]))
  }

  /** Maximum by area as a left fold that replaces the running best only on a strictly larger
      area. */
  function LargestIndex(cs: seq<Contour>): (k: nat)
    requires |cs| > 0
    ensures IsFirstLargest(cs, k)
  {
    if |cs| == 1 then 0
    else
      var last := |cs| - 1;
      var prefix := cs[..last];
      var k := LargestIndex(prefix);
      assert forall j :: 0 <= j < last ==> ContourArea(prefix[j]) == ContourArea(cs[j]);
      if ContourArea(cs[last]) > ContourArea(cs[k]) then last else k
  }

  /** There is only one first maximal position. */
  lemma FirstLargestUnique(cs: seq<Contour>, k1: nat, k2: nat)
    requires IsFirstLargest(cs, k1) && IsFirstLargest(cs, k2)
    ensures k1 == k2
  {
    assert ContourArea(cs[k1]) == ContourArea(cs[k2]);
  }

  /** The contour a mask contributes: none exactly when no contour was traced, and otherwise
      the first contour of maximal area. */
  function LargestContour(cs: seq<Contour>): (r: Option<Contour>)
    ensures r.None? <==> |cs| == 0
    ensures r.Some? ==> exists k: nat :: IsFirstLargest(cs, k) && cs[k] == r.value
  {
    if |cs| == 0 then None else Some(cs[LargestIndex(cs)])
  }
}

=== FILE: detections.dfy ===
/** The confidence filter: detection rows whose score is strictly above the threshold survive,
    with box columns and coefficient columns filtered by the same boolean mask. */
module Detections {
  import opened Masks

  /** Columns 0 to 5 of a row hold the box, the score and an auxiliary value. */
  const BoxColumns: nat := 6
  /** The column holding the detection's confidence score. */
  const ScoreColumn: nat := 4
  /** A row is the box columns followed by one coefficient per prototype plane. */
  const RowLength: nat := BoxColumns + NumPlanes

  /** One detection row as the network emits it. */
  type Row = seq<real>

  predicate WellFormedRows(rows: seq<Row>) {
    forall i :: 0 <= i < |rows| ==> |rows[i]| == RowLength
  }

  /** The box part (columns 0 to 5) of every row. */
  function Boxes(rows: seq<Row>): (b: seq<Row>)
    requires WellFormedRows(rows)
    ensures |b| == |rows|
  {
    seq(|rows|, i requires 0 <= i < |rows| => rows[i][..BoxColumns])
  }

  /** The coefficient part (columns 6 onwards) of every row. */
  function Coeffs(rows: seq<Row>): (c: seq<Row>)
    requires WellFormedRows(rows)
    ensures |c| == |rows|
  {
    seq(|rows|, i requires 0 <= i < |rows| => rows[i][BoxColumns..])
  }

  /** For every row, whether its score is strictly above `t`. */
  function ScoreMask(rows: seq<Row>, t: real): (keep: seq<bool>)
    requires forall i :: 0 <= i < |rows| ==> ScoreColumn < |rows[i]|
    ensures |keep| == |rows|
  {
    seq(|rows|, i requires 0 <= i < |rows| => rows[i][ScoreColumn] > t)
  }

  /** Boolean-mask selection: the elements of `xs` whose flag is set, in order. */
  function Compress<T>(xs: seq<T>, keep: seq<bool>): (r: seq<T>)
    requires |xs| == |keep|
    ensures |r| <= |xs|
  {
    if |xs| == 0 then []
    else Compress(xs[..|xs| - 1], keep[..|keep| - 1]) + (if keep[|keep| - 1] then [xs[|xs| - 1]] else [])
  }

  /** Reference definition of the survivors: the positions of the rows scoring strictly above
      `t`, in increasing order (characterised by `KeptExact`). */
  function Kept(rows: seq<Row>, t: real): (idx: seq<nat>)
    requires forall i :: 0 <= i < |rows| ==> ScoreColumn < |rows[i]|
    ensures forall n :: 0 <= n < |idx| ==> idx[n] < |rows|
  {
    if |rows| == 0 then []
    else
      var last := |rows| - 1;
      Kept(rows[..last], t) + (if rows[last][ScoreColumn] > t then [last] else [])
  }

  /** The kept positions are exactly the rows scoring strictly above `t`, each once, in
      increasing order. */
  lemma {:induction false} KeptExact(rows: seq<Row>, t: real)
    requires forall i :: 0 <= i < |rows| ==> ScoreColumn < |rows[i]|
    ensures forall n :: 0 <= n < |Kept(rows, t)| ==> rows[Kept(rows, t)[n]][ScoreColumn] > t
    ensures forall n, m :: 0 <= n < m < |Kept(rows, t)| ==> Kept(rows, t)[n] < Kept(rows, t)[m]
    ensures forall i :: 0 <= i < |rows| && rows[i][ScoreColumn] > t ==> i in Kept(rows, t)
  {
    KeptScoresAbove(rows, t);
    KeptIncreasing(rows, t);
    KeptComplete(rows, t);
  }

  lemma {:induction false} KeptScoresAbove(rows: seq<Row>, t: real)
    requires forall i :: 0 <= i < |rows| ==> ScoreColumn < |rows[i]|
    ensures forall n :: 0 <= n < |Kept(rows, t)| ==> rows[Kept(rows, t)[n]][ScoreColumn] > t
  {
    if |rows| > 0 {
      var last := |rows| - 1;
      var prefix := rows[..last];
      KeptScoresAbove(prefix, t);
      var idx, idx' := Kept(rows, t), Kept(prefix, t);
      forall n | 0 <= n < |idx|
        ensures rows[idx[n]][ScoreColumn] > t
      {
        if n < |idx'| {
          assert idx[n] == idx'[n] && prefix[idx'[n]] == rows[idx[n]];
        }
      }
    }
  }

  lemma {:induction false} KeptIncreasing(rows: seq<Row>, t: real)
    requires forall i :: 0 <= i < |rows| ==> ScoreColumn < |rows[i]|
    ensures forall n, m :: 0 <= n < m < |Kept(rows, t)| ==> Kept(rows, t)[n] < Kept(rows, t)[m]
  {
    if |rows| > 0 {
      var last := |rows| - 1;
      KeptIncreasing(rows[..last], t);
    }
  }

  lemma {:induction false} KeptComplete(rows: seq<Row>, t: real)
    requires forall i :: 0 <= i < |rows| ==> ScoreColumn < |rows[i]|
    ensures forall i :: 0 <= i < |rows| && rows[i][ScoreColumn] > t ==> i in Kept(rows, t)
  {
    if |rows| > 0 {
      var last := |rows| - 1;
      var prefix := rows[..last];
      KeptComplete(prefix, t);
      var idx, idx' := Kept(rows, t), Kept(prefix, t);
      assert idx[..|idx'|] == idx';
      forall i | 0 <= i < |rows| && rows[i][ScoreColumn] > t
        ensures i in idx
      {
        if i < last {
          assert prefix[i] == rows[i];
          assert i in idx';
        } else {
          assert idx[|idx| - 1] == last;
        }
      }
    }
  }

  /** Selecting by the score mask picks exactly the elements at the kept positions. */
  lemma {:induction false} CompressByScores<T>(xs: seq<T>, rows: seq<Row>, t: real)
    requires |xs| == |rows|
    requires forall i :: 0 <= i < |rows| ==> ScoreColumn < |rows[i]|
    ensures |Compress(xs, ScoreMask(rows, t))| == |Kept(rows, t)|
    ensures forall n :: 0 <= n < |Kept(rows, t)| ==> Compress(xs, ScoreMask(rows, t))[n] == xs[Kept(rows, t)[n]]
  {
    if |xs| > 0 {
      var last := |xs| - 1;
      var keep := ScoreMask(rows, t);
      assert keep[..last] == ScoreMask(rows[..last], t);
      CompressByScores(xs[..last], rows[..last], t);
    }
  }

  /** The filtered boxes and coefficients, still row-aligned. */
  datatype Filtered = Filtered(boxes: seq<Row>, coeffs: seq<Row>)

  /** The survivors of the confidence filter. The n-th surviving box and the n-th surviving
      coefficient vector are the two halves of the same original row, the n-th row (in order)
      whose score is strictly above `t`. */
  function Filter(rows: seq<Row>, t: real): (f: Filtered)
    requires WellFormedRows(rows)
    ensures |f.boxes| == |Kept(rows, t)| && |f.coeffs| == |Kept(rows, t)|
    ensures forall n :: 0 <= n < |Kept(rows, t)| ==>
              f.boxes[n] == rows[Kept(rows, t)[n]][..BoxColumns] &&
              f.coeffs[n] == rows[Kept(rows, t)[n]][BoxColumns..]
    ensures forall n :: 0 <= n < |f.coeffs| ==> |f.coeffs[n]| == NumPlanes
  {
    var boxes := Boxes(rows);
    var keep := ScoreMask(boxes, t);
    assert keep == ScoreMask(rows, t);
    CompressByScores(boxes, rows, t);
    CompressByScores(Coeffs(rows), rows, t);
    Filtered(Compress(boxes, keep), Compress(Coeffs(rows), keep))
  }

  /** `a` can be obtained from `b` by deleting elements. */
  predicate IsSubsequence<T(==)>(a: seq<T>, b: seq<T>)
    decreases |b|
  {
    |a| == 0 ||
    (|b| > 0 &&
     ((a[|a| - 1] == b[|b| - 1] && IsSubsequence(a[..|a| - 1], b[..|b| - 1])) ||
      IsSubsequence(a, b[..|b| - 1])))
  }

  /** Raising the threshold can only drop rows: the rows kept at the higher threshold are a
      subsequence of those kept at the lower one. */
  lemma {:induction false} KeptMonotone(rows: seq<Row>, t1: real, t2: real)
    requires forall i :: 0 <= i < |rows| ==> ScoreColumn < |rows[i]|
    requires t1 <= t2
    ensures IsSubsequence(Kept(rows, t2), Kept(rows, t1))
  {
    if |rows| > 0 {
      var last: nat := |rows| - 1;
      var a', b' := Kept(rows[..last], t2), Kept(rows[..last], t1);
      KeptMonotone(rows[..last], t1, t2);
      if rows[last][ScoreColumn] > t2 {
        assert Kept(rows, t2) == a' + [last] && Kept(rows, t1) == b' + [last];
        SnocBoth<nat>(a', b', last);
      } else if rows[last][ScoreColumn] > t1 {
        assert Kept(rows, t2) == a' && Kept(rows, t1) == b' + [last];
        SnocRight<nat>(a', b', last);
      } else {
        assert Kept(rows, t2) == a' && Kept(rows, t1) == b';
      }
    }
  }

  lemma SnocBoth<T>(a: seq<T>, b: seq<T>, x: T)
    requires IsSubsequence(a, b)
    ensures IsSubsequence(a + [x], b + [x])
  {
  }

  lemma SnocRight<T>(a: seq<T>, b: seq<T>, x: T)
    requires IsSubsequence(a, b)
    ensures IsSubsequence(a, b + [x])
  {
  }

  /** Boolean-mask selection is monotone in the mask. */
  lemma {:induction false} CompressMonotone<T>(xs: seq<T>, k1: seq<bool>, k2: seq<bool>)
    requires |xs| == |k1| == |k2|
    requires forall i :: 0 <= i < |xs| && k2[i] ==> k1[i]
    ensures IsSubsequence(Compress(xs, k2), Compress(xs, k1))
  {
    if |xs| > 0 {
      var last := |xs| - 1;
      var a, b := Compress(xs, k2), Compress(xs, k1);
      var a', b' := Compress(xs[..last], k2[..last]), Compress(xs[..last], k1[..last]);
      CompressMonotone(xs[..last], k1[..last], k2[..last]);
      if k2[last] {
        assert a[..|a| - 1] == a' && b[..|b| - 1] == b';
      } else if k1[last] {
        assert a == a' && b[..|b| - 1] == b';
      } else {
        assert a == a' && b == b';
      }
    }
  }

  /** Raising the threshold yields a subsequence of the surviving coefficient vectors. */
  lemma SurvivorsMonotone(rows: seq<Row>, t1: real, t2: real)
    requires WellFormedRows(rows)
    requires t1 <= t2
    ensures IsSubsequence(Filter(rows, t2).coeffs, Filter(rows, t1).coeffs)
  {
    var boxes := Boxes(rows);
    CompressMonotone(Coeffs(rows), ScoreMask(boxes, t1), ScoreMask(boxes, t2));
  }
}

=== FILE: geometry.dfy ===
/** Integer polygons traced on a mask and their enclosed area. */
module Geometry {

  /** A pixel coordinate: `x` is the column, `y` the row. */
  datatype Point = Point(x: int, y: int)

  /** A closed polygon: the last point connects back to the first. */
  type Contour = seq<Point>

  function Abs(n: int): (r: nat)
    ensures r == n || r == -n
  {
    if n < 0 then -n else n
  }

  /** Cross product of two position vectors: one term of the shoelace sum. */
  function Cross(p: Point, q: Point): int {
    p.x * q.y - q.x * p.y
  }

  /** Shoelace sum over the first `k` edges of `c`; edge `i` runs from `c[i]` to `c[(i + 1) % |c|]`. */
  function EdgeSum(c: Contour, k: nat): int
    requires k <= |c|
  {
    if k == 0 then 0 else EdgeSum(c, k - 1) + Cross(c[k - 1], c[k % |c|])
  }

  /** Twice the signed area of the closed polygon (positive when counter-clockwise in a y-up frame). */
  function TwiceSignedArea(c: Contour): int {
    EdgeSum(c, |c|)
  }

  /** The unoriented enclosed area of a contour, as the shoelace formula gives it. */
  function ContourArea(c: Contour): (a: real)
    ensures a >= 0.0
    ensures a == 0.0 <==> TwiceSignedArea(c) == 0
  {
    Abs(TwiceSignedArea(c)) as real / 2.0
  }

  /** The axis-aligned rectangle with corner (x, y), width w and height h, as four vertices. */
  function Rectangle(x: int, y: int, w: nat, h: nat): (c: Contour)
    ensures |c| == 4
  {
    [Point(x, y), Point(x + w, y), Point(x + w, y + h), Point(x, y + h)]
  }

  /** A rectangle's shoelace area is its width times its height, wherever it lies. */
  lemma RectangleArea(x: int, y: int, w: nat, h: nat)
    ensures ContourArea(Rectangle(x, y, w, h)) == (w * h) as real
  {
    var c := Rectangle(x, y, w, h);
    var W, H := w as int, h as int;
    assert Cross(c[0], c[1]) == -W * y by { assert x * y - (x + W) * y == -W * y; }
    assert Cross(c[1], c[2]) == (x + W) * H by { assert (x + W) * (y + H) - (x + W) * y == (x + W) * H; }
    assert Cross(c[2], c[3]) == W * (y + H) by { assert (x + W) * (y + H) - x * (y + H) == W * (y + H); }
    assert Cross(c[3], c[0]) == -x * H by { assert x * y - x * (y + H) == -x * H; }
    assert EdgeSum(c, 1) == Cross(c[0], c[1]);
    assert EdgeSum(c, 2) == EdgeSum(c, 1) + Cross(c[1], c[2]);
    assert EdgeSum(c, 3) == EdgeSum(c, 2) + Cross(c[2], c[3]);
    assert EdgeSum(c, 4) == EdgeSum(c, 3) + Cross(c[3], c[0]);
    assert EdgeSum(c, 4) == -W * y + (x + W) * H + W * (y + H) - x * H;
    assert -W * y + (x + W) * H + W * (y + H) - x * H == 2 * (W * H);
  }

  /** A contour of at most two points (a single pixel or a one-pixel-wide line) encloses no area. */
  lemma DegenerateContourHasNoArea(c: Contour)
    requires |c| <= 2
    ensures ContourArea(c) == 0.0
  {
    if |c| == 1 {
      assert EdgeSum(c, 1) == Cross(c[0], c[0]);
    } else if |c| == 2 {
      assert EdgeSum(c, 1) == Cross(c[0], c[1]);
      assert EdgeSum(c, 2) == Cross(c[0], c[1]) + Cross(c[1], c[0]);
    }
  }
}

=== FILE: masks.dfy ===
/** Mask reconstruction: one detection's coefficient vector weights the shared prototype
    planes, and the weighted sum is cut at 0.5 into a 0/255 mask. */
module Masks {

  /** Number of prototype planes, and so the length of every coefficient vector. */
  const NumPlanes: nat := 32
  /** A weighted sum strictly above this value is foreground. */
  const Cutoff: real := 0.5
  /** The value of a foreground cell in a binary mask. */
  const Foreground: int := 255

  /** One unsigned 8-bit cell. */
  type Byte = x: int | 0 <= x < 256

  /** A plane of real values, indexed row first. */
  type Plane = seq<seq<real>>

  /** An 8-bit single-channel image, indexed row first. */
  type Mask = seq<seq<Byte>>

  /** `g` has `h` rows of `w` cells each. */
  predicate IsGrid<T>(g: seq<seq<T>>, h: nat, w: nat) {
    |g| == h && forall i :: 0 <= i < h ==> |g[i]| == w
  }

  /** The prototype tensor of one inference call: `NumPlanes` planes of `h` by `w` cells. */
  predicate IsPrototypeSet(protos: seq<Plane>, h: nat, w: nat) {
    |protos| == NumPlanes && forall k :: 0 <= k < |protos| ==> IsGrid(protos[k], h, w)
  }

  /** Every cell of `m` is zero. */
  predicate IsBlank(m: Mask) {
    forall i, j :: 0 <= i < |m| && 0 <= j < |m[i]| ==> m[i][j] == 0
  }

  /** Reference definition of a reconstructed cell: the sum over the first `n` planes of
      `protos[k][i][j] * coeff[k]`. */
  function WeightedSum(protos: seq<Plane>, coeff: seq<real>, i: nat, j: nat, n: nat): real
    requires n <= |protos| && n <= |coeff|
    requires forall k :: 0 <= k < n ==> i < |protos[k]| && j < |protos[k][i]|
  {
    if n == 0 then 0.0 else WeightedSum(protos, coeff, i, j, n - 1) + protos[n - 1][i][j] * coeff[n - 1]
  }

  /** Inner product of the first `n` entries of two vectors. */
  function Dot(a: seq<real>, b: seq<real>, n: nat): real
    requires n <= |a| && n <= |b|
  {
    if n == 0 then 0.0 else Dot(a, b, n - 1) + a[n - 1] * b[n - 1]
  }

  /** The values of all planes at cell (i, j), plane by plane. */
  function PixelVector(protos: seq<Plane>, i: nat, j: nat): (v: seq<real>)
    requires forall k :: 0 <= k < |protos| ==> i < |protos[k]| && j < |protos[k][i]|
    ensures |v| == |protos|
  {
    seq(|protos|, k requires 0 <= k < |protos| => protos[k][i][j])
  }

  lemma MulMonotone(a: nat, b: nat, w: nat)
    requires a <= b
    ensures a * w <= b * w
  {
  }

  /** Division by a positive `w` is determined by any quotient and remainder that fit. */
  lemma DivModUnique(r: nat, q: nat, s: nat, w: nat)
    requires 0 <= s < w && r == q * w + s
    ensures r / w == q && r % w == s
  {
    var q', s' := r / w, r % w;
    assert r == q' * w + s';
    if q' > q {
      MulMonotone(q + 1, q', w);
      assert false;
    } else if q' < q {
      MulMonotone(q' + 1, q, w);
      assert false;
    }
  }

  lemma FlatIndex(r: nat, h: nat, w: nat)
    requires r < h * w
    ensures 0 < w && r / w < h && r % w < w
  {
  }

  lemma ReshapeIndex(i: nat, j: nat, h: nat, w: nat)
    requires i < h && j < w
    ensures i * w + j < h * w
    ensures (i * w + j) / w == i && (i * w + j) % w == j
  {
    MulMonotone(i + 1, h, w);
    assert (i + 1) * w == i * w + w;
    DivModUnique(i * w + j, i, j, w);
  }

  /** Row `r` of the prototypes transposed to (h, w, planes) and reshaped to (h * w, planes). */
  function FlatRow(protos: seq<Plane>, h: nat, w: nat, r: nat): (row: seq<real>)
    requires IsPrototypeSet(protos, h, w) && r < h * w
    ensures |row| == |protos|
  {
    FlatIndex(r, h, w);
    PixelVector(protos, r / w, r % w)
  }

  /** The prototypes as an (h * w) by planes matrix, one row per cell in row-major order. */
  function Flatten(protos: seq<Plane>, h: nat, w: nat): (m: seq<seq<real>>)
    requires IsPrototypeSet(protos, h, w)
    ensures |m| == h * w
    ensures forall r :: 0 <= r < |m| ==> |m[r]| == |protos|
  {
    seq(h * w, r requires 0 <= r < h * w => FlatRow(protos, h, w, r))
  }

  /** Matrix-vector product. */
  function MatVec(m: seq<seq<real>>, v: seq<real>): (out: seq<real>)
    requires forall r :: 0 <= r < |m| ==> |m[r]| == |v|
    ensures |out| == |m|
  {
    seq(|m|, r requires 0 <= r < |m| => Dot(m[r], v, |v|))
  }

  /** A vector of `h * w` values laid out row-major as an `h` by `w` plane. */
  function Reshape(v: seq<real>, h: nat, w: nat): (g: Plane)
    requires |v| == h * w
    ensures IsGrid(g, h, w)
  {
    seq(h, i requires 0 <= i < h =>
      seq(w, j requires 0 <= j < w => ReshapeIndex(i, j, h, w); v[i * w + j]))
  }

  lemma {:induction false} DotPixelVector(protos: seq<Plane>, coeff: seq<real>, i: nat, j: nat, n: nat)
    requires n <= |protos| && n <= |coeff|
    requires forall k :: 0 <= k < |protos| ==> i < |protos[k]| && j < |protos[k][i]|
    ensures Dot(PixelVector(protos, i, j), coeff, n) == WeightedSum(protos, coeff, i, j, n)
  {
    if n > 0 {
      DotPixelVector(protos, coeff, i, j, n - 1);
    }
  }

  /** The combination as written: transpose and flatten the prototypes, multiply by the
      coefficient vector, reshape back to the prototype resolution. Each cell is the reference
      weighted sum of that cell across the planes. */
  function Combine(protos: seq<Plane>, coeff: seq<real>, h: nat, w: nat): (g: Plane)
    requires IsPrototypeSet(protos, h, w) && |coeff| == NumPlanes
    ensures IsGrid(g, h, w)
    ensures forall i, j :: 0 <= i < h && 0 <= j < w ==>
              g[i][j] == WeightedSum(protos, coeff, i, j, NumPlanes)
  {
    var flat := Flatten(protos, h, w);
    var g := Reshape(MatVec(flat, coeff), h, w);
    assert forall i, j :: 0 <= i < h && 0 <= j < w ==>
             g[i][j] == WeightedSum(protos, coeff, i, j, NumPlanes) by {
      forall i, j | 0 <= i < h && 0 <= j < w
        ensures g[i][j] == WeightedSum(protos, coeff, i, j, NumPlanes)
      {
        ReshapeIndex(i, j, h, w);
        assert flat[i * w + j] == PixelVector(protos, i, j);
        DotPixelVector(protos, coeff, i, j, NumPlanes);
      }
    }
    g
  }

  /** Cells strictly above the cutoff become `Foreground`, all others 0. */
  function Binarise(g: Plane): (m: Mask)
    ensures |m| == |g| && forall i :: 0 <= i < |g| ==> |m[i]| == |g[i]|
    ensures forall i, j :: 0 <= i < |m| && 0 <= j < |m[i]| ==> m[i][j] == 0 || m[i][j] == Foreground
    ensures forall i, j :: 0 <= i < |m| && 0 <= j < |m[i]| ==> (m[i][j] == Foreground <==> g[i][j] > Cutoff)
  {
    seq(|g|, i requires 0 <= i < |g| =>
      seq(|g[i]|, j requires 0 <= j < |g[i]| => (if g[i][j] > Cutoff then 1 else 0) * Foreground))
  }

  /** The binary mask of one detection at prototype resolution: a cell is `Foreground` exactly
      where the weighted sum of the planes exceeds the cutoff, and 0 everywhere else. */
  function Reconstruct(protos: seq<Plane>, coeff: seq<real>, h: nat, w: nat): (m: Mask)
    requires IsPrototypeSet(protos, h, w) && |coeff| == NumPlanes
    ensures IsGrid(m, h, w)
    ensures forall i, j :: 0 <= i < h && 0 <= j < w ==> m[i][j] == 0 || m[i][j] == Foreground
    ensures forall i, j :: 0 <= i < h && 0 <= j < w ==>
              (m[i][j] == Foreground <==> WeightedSum(protos, coeff, i, j, NumPlanes) > Cutoff)
  {
    Binarise(Combine(protos, coeff, h, w))
  }

  lemma {:induction false} WeightedSumOfZeroCoefficients(protos: seq<Plane>, coeff: seq<real>, i: nat, j: nat, n: nat)
    requires n <= |protos| && n <= |coeff|
    requires forall k :: 0 <= k < n ==> i < |protos[k]| && j < |protos[k][i]|
    requires forall k :: 0 <= k < |coeff| ==> coeff[k] == 0.0
    ensures WeightedSum(protos, coeff, i, j, n) == 0.0
  {
    if n > 0 {
      WeightedSumOfZeroCoefficients(protos, coeff, i, j, n - 1);
    }
  }

  /** A detection whose coefficients are all zero reconstructs an all-background mask. */
  lemma ZeroCoefficientsGiveBlankMask(protos: seq<Plane>, coeff: seq<real>, h: nat, w: nat)
    requires IsPrototypeSet(protos, h, w) && |coeff| == NumPlanes
    requires forall k :: 0 <= k < |coeff| ==> coeff[k] == 0.0
    ensures IsBlank(Reconstruct(protos, coeff, h, w))
  {
    var m := Reconstruct(protos, coeff, h, w);
    forall i, j | 0 <= i < |m| && 0 <= j < |m[i]|
      ensures m[i][j] == 0
    {
      WeightedSumOfZeroCoefficients(protos, coeff, i, j, NumPlanes);
    }
  }

  /** A combination above the cutoff at every cell reconstructs an all-foreground mask, and one
      at or below it everywhere an all-background mask. */
  lemma UniformCombination(protos: seq<Plane>, coeff: seq<real>, h: nat, w: nat)
    requires IsPrototypeSet(protos, h, w) && |coeff| == NumPlanes
    ensures (forall i, j :: 0 <= i < h && 0 <= j < w ==> WeightedSum(protos, coeff, i, j, NumPlanes) > Cutoff)
            ==> forall i, j :: 0 <= i < h && 0 <= j < w ==> Reconstruct(protos, coeff, h, w)[i][j] == Foreground
    ensures (forall i, j :: 0 <= i < h && 0 <= j < w ==> WeightedSum(protos, coeff, i, j, NumPlanes) <= Cutoff)
            ==> IsBlank(Reconstruct(protos, coeff, h, w))
  {
  }
}

=== FILE: outcomes.dfy ===
/** Absence and failure values used by the segmentation pipeline. */
module Outcomes {

  /** A value that may be absent: the pipeline's "no contour" answer is `None`. */
  datatype Option<+T> = None | Some(value: T)

  /** The only error the pipeline raises itself. */
  datatype Error = InvalidArgument(message: string)

  /** Either a value or the error raised instead of producing one. */
  datatype Result<+T> = Success(value: T) | Failure(error: Error)
}

=== FILE: segment.dfy ===
/** The whole post-processing of one image: input check, confidence filter, per-detection mask
    reconstruction and contour tracing, and the running maximum over detections. */
module Segment {
  import opened Outcomes
  import opened Geometry
  import opened Masks
  import opened Detections
  import opened ContourSelection

  /** The confidence threshold used when the caller gives none. */
  const DefaultConfidence: real := 0.3

  /** An image array: its shape and its pixel buffer. The post-processing reads only the shape;
      the pixels matter only to the inference engine. */
  datatype Image = Image(height: nat, width: nat, channels: nat, pixels: seq<int>) {
    /** Number of elements of the array. */
    function Size(): nat {
      height * width * channels
    }
  }

  /** The two tensors the network returns for one image, batch dimension dropped: one row per
      detection, and the prototype planes with their shape. */
  datatype NetOutput = NetOutput(rows: seq<Row>, protos: seq<Plane>, maskHeight: nat, maskWidth: nat)

  /** The shapes the network guarantees: rows of 38 columns and 32 planes of one common,
      nonempty size (resizing an empty mask is an error). */
  predicate WellShaped(out: NetOutput) {
    && WellFormedRows(out.rows)
    && IsPrototypeSet(out.protos, out.maskHeight, out.maskWidth)
    && out.maskHeight > 0 && out.maskWidth > 0
  }

  /** The image routines the pipeline calls. `resize(m, (width, height))` takes its target size
      width first; `findContours` traces the external boundaries of the nonzero regions. */
  datatype Vision = Vision(resize: (Mask, (nat, nat)) -> Mask, findContours: Mask -> seq<Contour>)

  /** A mask with at least one row and one column; resizing anything else is an error. */
  predicate NonEmpty(m: Mask) {
    |m| > 0 && |m[0]| > 0
  }

  /** Resizing a nonempty mask to a nonempty size produces exactly the requested number of rows
      and columns. */
  ghost predicate ResizeHonoursSize(cv: Vision) {
    forall m, size: (nat, nat) :: NonEmpty(m) && size.0 > 0 && size.1 > 0 ==>
      IsGrid(cv.resize(m, size), size.1, size.0)
  }

  /** Resizing a nonempty all-zero mask to a nonempty size keeps it all zero, and nothing is
      traced on an all-zero mask. */
  ghost predicate BlankStaysEmpty(cv: Vision) {
    && (forall m, size: (nat, nat) :: NonEmpty(m) && size.0 > 0 && size.1 > 0 && IsBlank(m) ==>
          IsBlank(cv.resize(m, size)))
    && (forall m :: IsBlank(m) ==> cv.findContours(m) == [])
  }

  /** One detection's binary mask, resized to the original image's size. */
  function DetectionMask(out: NetOutput, coeff: seq<real>, height: nat, width: nat, cv: Vision): Mask
    requires WellShaped(out) && |coeff| == NumPlanes
  {
    cv.resize(Reconstruct(out.protos, coeff, out.maskHeight, out.maskWidth), (width, height))
  }

  /** The contour one detection contributes, if any. */
  function DetectionContour(out: NetOutput, coeff: seq<real>, height: nat, width: nat, cv: Vision): Option<Contour>
    requires WellShaped(out) && |coeff| == NumPlanes
  {
    LargestContour(cv.findContours(DetectionMask(out, coeff, height, width, cv)))
  }

  /** The contour of every surviving detection of `img`, in detection order. */
  function Candidates(img: Image, confidence: real, infer: Image -> NetOutput, cv: Vision): (cands: seq<Option<Contour>>)
    requires WellShaped(infer(img))
    ensures |cands| == |Kept(infer(img).rows, confidence)|
  {
    var out := infer(img);
    var survivors := Filter(out.rows, confidence).coeffs;
    seq(|survivors|, n requires 0 <= n < |survivors| =>
      DetectionContour(out, survivors[n], img.height, img.width, cv))
  }

  /** The area a candidate brings to the comparison; a detection without a contour brings none. */
  function CandidateArea(o: Option<Contour>): real {
    match o
    case None => 0.0
    case Some(c) => ContourArea(c)
  }

  /** Among the first `n` candidates, candidate `k` wins: it has a contour of positive area, no
      candidate has a larger one, and every earlier candidate has a strictly smaller one. */
  predicate BestAmong(cands: seq<Option<Contour>>, n: nat, k: nat) {
    && k < n <= |cands|
    && cands[k].Some?
    && CandidateArea(cands[k]) > 0.0
    && (forall j :: 0 <= j < n ==> CandidateArea(cands[j]) <= CandidateArea(cands[k]))
    && (forall j :: 0 <= j < k ==> CandidateArea(cands[j]) < CandidateArea(cands[k]))
  }

  /** `r` is the outcome of the running maximum over all of `cands`: the contour of the
      winning candidate, or none when no candidate has a contour of positive area. */
  ghost predicate IsBest(cands: seq<Option<Contour>>, r: Option<Contour>) {
    match r
    case None => NoneWins(cands)
    case Some(c) => exists k: nat :: BestAmong(cands, |cands|, k) && cands[k] == Some(c)
  }

  /** No candidate has a contour of positive area. */
  ghost predicate NoneWins(cands: seq<Option<Contour>>) {
    forall j :: 0 <= j < |cands| ==> CandidateArea(cands[j]) == 0.0
  }

  /** The state of the running maximum after `n` candidates: `largest` and its position `best`. */
  ghost predicate Running(cands: seq<Option<Contour>>, n: nat, largest: Option<Contour>, best: nat) {
    && n <= |cands|
    && (largest.None? ==> forall j :: 0 <= j < n ==> CandidateArea(cands[j]) == 0.0)
    && (largest.Some? ==> BestAmong(cands, n, best) && cands[best] == largest)
  }

  /** One step of the running maximum: a candidate replaces the current best only when its area
      is strictly larger. */
  lemma RunningStep(cands: seq<Option<Contour>>, n: nat, largest: Option<Contour>, best: nat)
    requires n < |cands| && Running(cands, n, largest, best)
    ensures CandidateArea(cands[n]) > CandidateArea(largest) ==> Running(cands, n + 1, cands[n], n)
    ensures CandidateArea(cands[n]) <= CandidateArea(largest) ==> Running(cands, n + 1, largest, best)
  {
  }

  /** The running maximum over all candidates is their best. */
  lemma RunningDone(cands: seq<Option<Contour>>, largest: Option<Contour>, best: nat)
    requires Running(cands, |cands|, largest, best)
    ensures IsBest(cands, largest)
  {
  }

  /** Segments `image`: the largest contour over all detections scoring above `confidence`, or
      none, or an invalid-argument error for an absent or empty image. */
  method SegmentImage(image: Option<Image>, confidence: real := DefaultConfidence, infer: Image -> NetOutput, cv: Vision)
    returns (r: Result<Option<Contour>>)
    requires image.Some? && image.value.Size() > 0 ==> WellShaped(infer(image.value))
    ensures r.Failure? <==> image.None? || image.value.Size() == 0
    ensures r.Success? ==> IsBest(Candidates(image.value, confidence, infer, cv), r.value)
    ensures r.Success? && |Kept(infer(image.value).rows, confidence)| == 0 ==> r.value.None?
  {
    if image.None? || image.value.Size() == 0 {
      return Failure(InvalidArgument("Empty image provided to segment_image()."));
    }
    var img := image.value;
    var out := infer(img);
    var survivors := Filter(out.rows, confidence).coeffs;
    if |survivors| == 0 {
      return Success(None);
    }
    ghost var cands := Candidates(img, confidence, infer, cv);
    var largest: Option<Contour> := None;
    var maxArea: real := 0.0;
    ghost var best: nat := 0;
    var n := 0;
    while n < |survivors|
      invariant 0 <= n <= |survivors| == |cands|
      invariant maxArea == CandidateArea(largest)
      invariant Running(cands, n, largest, best)
    {
      var contour := DetectionContour(out, survivors[n], img.height, img.width, cv);
      assert contour == cands[n];
      RunningStep(cands, n, largest, best);
      if contour.Some? {
        var area := ContourArea(contour.value);
        if area > maxArea {
          maxArea := area;
          largest := contour;
          best := n;
        }
      }
      n := n + 1;
    }
    RunningDone(cands, largest, best);
    return Success(largest);
  }

  /** The outcome of the running maximum is determined by the candidates alone. */
  lemma IsBestUnique(cands: seq<Option<Contour>>, r1: Option<Contour>, r2: Option<Contour>)
    requires IsBest(cands, r1) && IsBest(cands, r2)
    ensures r1 == r2
  {
  }

  /** The selected contour is traced on some surviving detection's mask, has positive area, and
      no contour traced on any surviving detection's mask is larger; when nothing is selected,
      every traced contour has zero area. */
  lemma BestCoversEveryTracedContour(img: Image, confidence: real, infer: Image -> NetOutput, cv: Vision, r: Option<Contour>)
    requires WellShaped(infer(img))
    requires IsBest(Candidates(img, confidence, infer, cv), r)
    ensures var out := infer(img);
            var survivors := Filter(out.rows, confidence).coeffs;
            && (forall n, c :: 0 <= n < |survivors| && c in cv.findContours(DetectionMask(out, survivors[n], img.height, img.width, cv))
                  ==> ContourArea(c) <= CandidateArea(r))
            && (r.Some? ==>
                  && ContourArea(r.value) > 0.0
                  && exists n :: 0 <= n < |survivors| &&
                       r.value in cv.findContours(DetectionMask(out, survivors[n], img.height, img.width, cv)))
  {
    var out := infer(img);
    var survivors := Filter(out.rows, confidence).coeffs;
    var cands := Candidates(img, confidence, infer, cv);
    forall n, c | 0 <= n < |survivors| && c in cv.findContours(DetectionMask(out, survivors[n], img.height, img.width, cv))
      ensures ContourArea(c) <= CandidateArea(r)
    {
      var cs := cv.findContours(DetectionMask(out, survivors[n], img.height, img.width, cv));
      assert cands[n] == LargestContour(cs);
      var k: nat :| IsFirstLargest(cs, k) && cs[k] == cands[n].value;
      var i :| 0 <= i < |cs| && cs[i] == c;
      assert ContourArea(c) <= CandidateArea(cands[n]);
      if r.Some? {
        var b: nat :| BestAmong(cands, |cands|, b) && cands[b] == r;
        assert CandidateArea(cands[n]) <= CandidateArea(r);
      }
    }
    if r.Some? {
      var b: nat :| BestAmong(cands, |cands|, b) && cands[b] == r;
      var cs := cv.findContours(DetectionMask(out, survivors[b], img.height, img.width, cv));
      assert cands[b] == LargestContour(cs);
      var k: nat :| IsFirstLargest(cs, k) && cs[k] == r.value;
      assert r.value in cs;
    }
  }

  /** Each detection's mask is resized to the original image's height and width, not to the
      network's input size. */
  lemma DetectionMaskHasImageSize(img: Image, out: NetOutput, coeff: seq<real>, cv: Vision)
    requires WellShaped(out) && |coeff| == NumPlanes
    requires img.height > 0 && img.width > 0
    requires ResizeHonoursSize(cv)
    ensures IsGrid(DetectionMask(out, coeff, img.height, img.width, cv), img.height, img.width)
  {
  }

  /** A detection whose coefficients are all zero contributes no contour. */
  lemma ZeroCoefficientsGiveNoContour(out: NetOutput, coeff: seq<real>, height: nat, width: nat, cv: Vision)
    requires WellShaped(out) && |coeff| == NumPlanes
    requires forall k :: 0 <= k < |coeff| ==> coeff[k] == 0.0
    requires height > 0 && width > 0
    requires BlankStaysEmpty(cv)
    ensures DetectionContour(out, coeff, height, width, cv) == None
  {
    var m := Reconstruct(out.protos, coeff, out.maskHeight, out.maskWidth);
    ZeroCoefficientsGiveBlankMask(out.protos, coeff, out.maskHeight, out.maskWidth);
    assert IsBlank(cv.resize(m, (width, height)));
  }

  /** Of two squares, the larger is selected whichever detection comes first, and its area is
      its side squared (for square contours of sides 10 and 20: the one of side 20, area 400). */
  lemma LargerSquareWins(x1: int, y1: int, s1: nat, x2: int, y2: int, s2: nat)
    requires 0 < s1 < s2
    ensures var small, large := Rectangle(x1, y1, s1, s1), Rectangle(x2, y2, s2, s2);
            && IsBest([Some(small), Some(large)], Some(large))
            && IsBest([Some(large), Some(small)], Some(large))
            && ContourArea(large) == (s2 * s2) as real
  {
    var small, large := Rectangle(x1, y1, s1, s1), Rectangle(x2, y2, s2, s2);
    RectangleArea(x1, y1, s1, s1);
    RectangleArea(x2, y2, s2, s2);
    assert 0 < s1 * s1 < s2 * s2 by {
      assert s1 * s1 <= s1 * s2 < s2 * s2;
    }
    assert BestAmong([Some(small), Some(large)], 2, 1);
    assert BestAmong([Some(large), Some(small)], 2, 0);
  }
}
